=== FILE: README.md ===
# Salon booking backend — verified model of the in-memory stores

This project models the request handlers of a small beauty-salon backend
(`src/index.js`) in Dafny. The handlers work on four in-memory tables: users,
products (the service catalogue), orders and appointments. Each table has an id
counter. The model is one class, `Backend.Store`, that holds the four tables
and their counters. Each handler is a method of `Store` that changes only the
fields it names in its `modifies` clause. The three list handlers
(`ListProducts`, `ListOrders`, `ListAppointments`) cannot fail and return the
table directly; every other handler answers with `Ok(value)` or `Err(error)`.
A protected handler takes the outcome of the `auth` gate as `session`: a user
id, or one of the gate's two errors (`AuthGate.GateOutcome`). The errors are `Unauthenticated` and
`InvalidToken` (401), `ValidationError`, `Duplicate` and `InvalidCredentials`
(400), and `NotFound` (404).

Files and modules:

- `outcomes.dfy` (`Outcomes`): `Option`, the error replies and `Result`.
- `js_values.dfy` (`JsValues`): the values a JSON request body can hold. It also
  defines JavaScript truthiness, the `typeof` checks, `x || d` and `===`. In
  `===`, an array or object that was just parsed from a body is a fresh
  reference.
- `sequences.dfy` (`Sequences`): `findIndex`, `splice(k, 1)` and `Math.max`. It
  also states the invariants of an id-keyed table: ids are distinct, every id
  below the counter, and an id is never handed out twice.
- `auth_gate.dfy` (`AuthGate`): the `auth` middleware. It splits the
  Authorization header on spaces and takes the second piece.
- `records.dfy` (`Records`): users, products and orders. It holds their
  request bodies, the body validation and the seeded product ids.
- `lifecycle.dfy` (`Lifecycle`): appointments, the record that create builds,
  confirm-payment and the status/notes update. It also covers the payment phase
  these move an appointment through, and the owner filter.
- `store.dfy` (`Backend`): the `Store` class and its handlers. `Store.Valid()`
  is kept by every handler. It says:
  - user ids are 1, 2, 3, … and no email is registered twice;
  - product and appointment ids are distinct, and every id ever issued is below
    the counter;
  - order ids are 1, 2, 3, …;
  - every appointment's payment fields describe a phase and its status is truthy.
- `scenarios.dfy` (`Scenarios`): request sequences with the replies they must
  get. Most start from a fresh store; `SequentialProductIds` starts from any
  valid store.

Behaviour of the handlers worth knowing, which the model keeps as the code has it:

- src/index.js:110 rejects only a zero or non-number price, so negative prices
  are accepted.
- Product create, update and delete require no token. The start-up banner at
  src/index.js:273-275 lists them as "(auth)", but the routes have no `auth`
  middleware.
- An appointment's `status` can be set to any truthy value, not only a string.
- Notes given as `null` or `''` replace the old notes, because only `undefined`
  leaves them alone.

## Model

| member | source | states |
|---|---|---|
| `Sequences.FindIndex` | src/index.js:120 | `findIndex`: -1 exactly when no element satisfies the predicate; otherwise the first index that does |
| `Sequences.RemoveAt` | src/index.js:134 | `splice(k, 1)`: one element shorter, rows before `k` kept in place, rows after shifted down by one |
| `Sequences.MaxOf` | src/index.js:87 | `Math.max` of a non-empty list is one of its elements and at least every element |
| `Sequences.NextIdAfter` | src/index.js:87 | the seeded product counter is 1 over an empty table; otherwise it is above every seeded id and exactly one past the largest |
| `Sequences.AppendKeepsKeyed` | src/index.js:113-114 | appending a row that takes the counter's id keeps ids distinct; that id was never issued before; the table stays keyed once the counter moves on |
| `Sequences.RemoveKeepsKeyed` | src/index.js:132-134 | removing one row keeps the table keyed (the counter is untouched); the rows left are exactly those whose id differs from the removed row's |
| `Sequences.ReplaceKeepsKeyed` | src/index.js:126 | replacing a row by one with the same id keeps the table keyed |
| `AuthGate.Split` | src/index.js:36 | `split(' ')` gives at least one piece; no piece contains a space; there is exactly one piece iff the header has no space |
| `AuthGate.JoinSplit` | src/index.js:36 | joining the pieces of `split(' ')` with spaces gives the header back: the split loses nothing |
| `AuthGate.BearerToken` | src/index.js:36 | `split(' ')[1]` exists iff the header contains a space, and it contains no space |
| `AuthGate.SplitAfterScheme` | src/index.js:36 | a space-free scheme, a space and a tail split into the scheme followed by the tail's pieces |
| `AuthGate.SplitFirstPiece` | src/index.js:36 | a space-free token followed by nothing or by a space is the first piece |
| `AuthGate.BearerTokenOf` | src/index.js:36 | `<scheme> <token>[ <more>]` yields exactly `<token>` |
| `JsValues.Truthy` | src/index.js:49 | JavaScript truthiness (`!x`): falsy are exactly `undefined`, `null`, `false`, `0` and `''`; every array and object is truthy |
| `JsValues.OrElse` | src/index.js:207-211 | the logical-or default (`notes` or `''`) is one of its operands, the first when it is truthy and otherwise the second, so it is truthy iff either operand is |
| `JsValues.StrictEquals` | src/index.js:51 | `===` against a value just parsed from a request body: an object or array parsed from a body is never `===` to a stored value; a primitive is `===` exactly to an equal stored primitive |
| `AuthGate.Auth` | src/index.js:33-44 | a missing or empty header is `Unauthenticated`; every other failure is `InvalidToken`; success carries the user id the token service reads from the second piece, and a header with a second piece the service accepts always succeeds with that id |
| `AuthGate.AuthAcceptsBearer` | src/index.js:33-40 | `Bearer <token>` with a token the service accepts lets exactly that token's user through |
| `Records.CredentialsGiven` | src/index.js:49 | the `email && password` check of signup and login refuses a missing, `null` or empty field and accepts two non-empty strings |
| `Records.EmailTaken` | src/index.js:51 | `users.find(u => u.email === email)` finds a user exactly when some stored email equals a primitive `email`; an object or array email never finds one |
| `Records.EmailOwnerUnique` | src/index.js:67 | in a well-formed user table at most one user matches an email, so `find` has a single candidate |
| `Records.SignupKeepsUsers` | src/index.js:51-56 | appending a user with an untaken truthy email under the counter's id keeps ids sequential and emails unique |
| `Records.ProductFieldsOf` | src/index.js:110 | a product body is accepted iff name, image and description are non-empty strings and price is a non-zero number; the accepted fields are exactly the body's |
| `Records.ProductFieldsRoundTrip` | src/index.js:110-113 | every well-formed field set is accepted when sent and comes back unchanged |
| `Records.WithFields` | src/index.js:126 | the spread `{ ...products[idx], name, price, image, description }` keeps the product's id, duration and category and takes exactly the four given fields |
| `Records.OrderAccepted` | src/index.js:141 | an accepted order has truthy items, customer and payment intent; a `null` customer is refused even though `typeof null` is 'object'; a zero total is accepted |
| `Records.SeedIdsDistinct` | src/products.js:4-67 | the seeded product ids 1..8 are distinct |
| `Records.SeedNextProductId` | src/index.js:87 | over the seeded ids 1..8 the product counter starts at 9 |
| `Lifecycle.AppointmentAccepted` | src/index.js:197 | `service && date && time`: a missing, `null` or empty required field is refused and three non-empty strings are accepted |
| `Lifecycle.NewAppointment` | src/index.js:201-216 | a created appointment is awaiting its deposit and has a truthy status |
| `Lifecycle.NewAppointmentFields` | src/index.js:201-216 | the created record: caller and counter ids, required fields as given, `''` defaults for falsy notes and customer fields, `null` for a falsy stylist, 'pending_payment' / 'unpaid' / no deposit |
| `Lifecycle.Paid` | src/index.js:254-259 | after confirm-payment the record has received its deposit, whatever it was before |
| `Lifecycle.PaidFields` | src/index.js:254-259 | confirm-payment sets deposit paid, 'deposit_paid', 'pending' and the given intent id and amount; no field but those and `paidAt` changes |
| `Lifecycle.Edited` | src/index.js:228-230 | the status/notes update never changes the payment phase and never makes the status falsy |
| `Lifecycle.EditedFields` | src/index.js:229-230 | the status is overwritten only by a truthy value, the notes whenever the body has them (even `''`), and no other field changes |
| `Lifecycle.ConfirmLastWins` | src/index.js:254-259 | confirming twice is the same as confirming once with the second body: no replay guard |
| `Lifecycle.EditWithoutFieldsKeeps` | src/index.js:229-230 | an update with a falsy status and no notes leaves the record unchanged |
| `Lifecycle.EditsCompose` | src/index.js:229-230 | a later update that carries both fields overrides an earlier one completely |
| `Lifecycle.ReplayPhase` | src/index.js:223-262 | over any sequence of updates and confirmations, id and owner never change; the deposit is recorded iff some confirmation happened; otherwise the phase is the starting one |
| `Lifecycle.UnconfirmedStaysUnpaid` | src/index.js:212-214 | a new appointment stays 'unpaid' with no deposit until some confirmation happens |
| `Lifecycle.OwnedBy` | src/index.js:190 | the "my appointments" filter holds exactly the caller's appointments and no others |
| `Lifecycle.OwnedByAppend` | src/index.js:190 | the filter keeps table order: filtering a concatenation concatenates the filtered parts |
| `Backend.Store.constructor` | src/index.js:84-88 | at start the user, order and appointment tables are empty with counters at 1; products are the seed; the product counter is one past the largest seeded id |
| `Backend.Store.Signup` | src/index.js:47-60 | missing email or password gives `ValidationError`; an email already registered gives `Duplicate`; both leave the table alone. Otherwise the user is appended under the counter's id, the counter moves on, and the token is issued for that id |
| `Backend.Store.Login` | src/index.js:63-75 | missing fields give `ValidationError`; an unknown email gives `InvalidCredentials`; for the one matching user, the reply is a token for that user iff the password matches, and otherwise the same `InvalidCredentials` |
| `Backend.Store.ListProducts` | src/index.js:91-93 | returns the whole catalogue |
| `Backend.Store.GetProduct` | src/index.js:96-101 | returns the stored product with that id, `NotFound` iff there is none |
| `Backend.Store.LocateProduct` | src/index.js:120 | finds the row of the only product with that id, -1 iff there is none |
| `Backend.Store.CreateProduct` | src/index.js:108-116 | an invalid body gives `ValidationError` and no change. Otherwise the product is appended with the four fields and the counter's id, which was never issued before, and the counter moves on |
| `Backend.Store.UpdateProduct` | src/index.js:118-128 | `NotFound` comes before validation; a failure changes nothing. Success replaces only the four fields of the one product with that id, keeping its id, duration and category, and no other product changes |
| `Backend.Store.DeleteProduct` | src/index.js:130-136 | `NotFound` iff the id is absent. Otherwise exactly the product with that id is removed, the others keep their order, and the counter is untouched |
| `Backend.Store.ListOrders` | src/index.js:104-106 | returns every order |
| `Backend.Store.CreateOrder` | src/index.js:139-147 | the gate's error comes first. `items` must be an array, `total` a number, `customer` an object and `paymentIntentId` truthy; the order is then appended with the caller's id and the counter's id |
| `Backend.Store.ListAppointments` | src/index.js:184-186 | returns every appointment of every user, with no authentication |
| `Backend.Store.ListMine` | src/index.js:189-192 | the gate's error, or exactly the caller's appointments in table order |
| `Backend.Store.CreateAppointment` | src/index.js:195-220 | the gate's error, or `ValidationError` unless service, date and time are truthy; a failure changes nothing. Otherwise the new appointment is appended with the old counter value as id and the counter moves on; the id was never issued before |
| `Backend.Store.UpdateAppointment` | src/index.js:223-233 | the gate's error, or `NotFound` for a missing id, with no change. Otherwise only the appointment with that id is updated |
| `Backend.Store.DeleteAppointment` | src/index.js:236-243 | the gate's error, or `NotFound` for a missing id. Otherwise exactly that appointment is removed, the rest keep their order, and the counter is untouched |
| `Backend.Store.ConfirmPayment` | src/index.js:246-262 | the gate's error, or `NotFound` for a missing id, with no change. Otherwise only the appointment with that id is confirmed, whatever its status was |
| `Backend.Store.LocateAppointment` | src/index.js:225 | finds the row of the only appointment with that id, -1 iff there is none |
| `Scenarios.SilkPressBooking` | src/index.js:201-259 | user 7 books "Silk Press" and gets id 1, 'pending_payment', 'unpaid', `''` notes and `null` stylist; confirming with "pi_123" and 30 gives 'pending', 'deposit_paid' and deposit paid |
| `Scenarios.FirstProductAfterSeed` | src/index.js:85-87 | over the seeded catalogue the first created product gets id 9 |
| `Scenarios.SequentialProductIds` | src/index.js:113-134 | three products created in turn get consecutive ids, even when the first is deleted before the third is created; the deleted one is then `NotFound` |
| `Scenarios.SignupThenLogin` | src/index.js:47-75 | signup then login with the same credentials each reply with a token signed for user 1 at that request's time, and the gate accepts both as user 1; signing up the same email again is `Duplicate` whatever the password |
| `Scenarios.OwnListings` | src/index.js:189-191 | with two users who have booked, each one's listing holds only that user's own booking |

## Left out

- Express setup, CORS, JSON parsing, the request logger, the root route and the start-up banner (src/index.js:14-22, 80-82, 264-286) are HTTP plumbing and console output.
- bcrypt and jsonwebtoken are parameters, because they are foreign, asynchronous library calls:
  - `Signup` receives `hashed`, the value `bcrypt.hash(password, 10)` resolved to;
  - `Login` receives `matches`, which stands for `bcrypt.compare`;
  - `sign` stands for `jwt.sign` of `{ userId }` with the secret and 7-day expiry, called at
    the time of the request. The issue time is part of the token, so two requests for the
    same user are given separate `sign` functions and may get different tokens;
  - `Auth` receives `verify`, which stands for `jwt.verify`, expiry included.
- A rejected bcrypt call (for example on a non-string password) is not modelled: the model assumes the hash resolves.
- The payment-intent and webhook handlers (src/index.js:150-180) are left out:
  - they only call the external payment processor;
  - their amount conversion is floating point;
  - the webhook's success branch does nothing.
- Timestamps (`new Date().toISOString()`) are the `now` parameter.
- `parseInt` on route parameters is left out; the id arrives as an `int`. A non-numeric id gives `NaN`, which matches no row, so the result is the same `NotFound` the model gives for an absent id.
- JSON numbers are modelled as reals, so floating-point rounding is not modelled.
- Order items and customers, and the text fields of the seeded catalogue, are opaque values. Only the seed's ids matter to the model.
- Concurrency is not modelled: each handler runs to completion before the next one. The handlers that await bcrypt check the email before the await and push after it, so two interleaved signups for the same email could both succeed. The model does not capture this.

=== FILE: auth_gate.dfy ===
/** The `auth` middleware (src/index.js:33-44): it reads the Authorization header, takes
    the second space-separated piece as the token and asks the token service for the user
    id it carries. Token verification (jsonwebtoken with the server secret and its expiry)
    is the parameter `verify`. */
module AuthGate {
  import opened Outcomes

  const Space: char := ' '

  /** `s.split(' ')`: the pieces between spaces, empty pieces included; never an empty list. */
  function Split(s: string): (pieces: seq<string>)
    ensures |pieces| >= 1
    ensures forall i :: 0 <= i < |pieces| ==> Space !in pieces[i]
    ensures |pieces| == 1 <==> Space !in s
  {
    if s == [] then [[]]
    else
      var rest := Split(s[1..]);
      if s[0] == Space then [[]] + rest
      else [[s[0]] + rest[0]] + rest[1..]
  }

  /** `pieces.join(' ')` */
  function Join(pieces: seq<string>): string
    requires |pieces| >= 1
  {
    if |pieces| == 1 then pieces[0] else pieces[0] + [Space] + Join(pieces[1..])
  }

  /** Splitting loses nothing: joining the pieces with spaces gives the header back. */
  lemma {:induction false} JoinSplit(s: string)
    ensures Join(Split(s)) == s
  {
    if s != [] {
      var rest := Split(s[1..]);
      JoinSplit(s[1..]);
      if s[0] == Space {
        assert Split(s)[1..] == rest;
        assert Join(Split(s)) == [] + [Space] + Join(rest);
      } else if |rest| == 1 {
        assert Join(Split(s)) == [s[0]] + rest[0];
      } else {
        var pieces := Split(s);
        assert pieces[1..] == rest[1..];
        assert Join(pieces) == [s[0]] + rest[0] + [Space] + Join(rest[1..]);
        assert Join(rest) == rest[0] + [Space] + Join(rest[1..]);
      }
    }
  }

  /** `header.split(' ')[1]`: the token after the scheme, or `undefined` when the header
      holds no space. */
  function BearerToken(header: string): (token: Option<string>)
    ensures token.Some? <==> Space in header
    ensures token.Some? ==> Space !in token.value
  {
    var pieces := Split(header);
    if |pieces| > 1 then Some(pieces[1]) else None
  }

  /** A scheme without spaces, one space, then the pieces after it. */
  lemma {:induction false} SplitAfterScheme(scheme: string, tail: string)
    requires Space !in scheme
    ensures Split(scheme + [Space] + tail) == [scheme] + Split(tail)
  {
    if scheme == [] {
      assert ([Space] + tail)[1..] == tail;
    } else {
      var s := scheme + [Space] + tail;
      assert s[0] == scheme[0] != Space;
      assert s[1..] == scheme[1..] + [Space] + tail;
      SplitAfterScheme(scheme[1..], tail);
      var rest := Split(s[1..]);
      assert rest[0] == scheme[1..] && rest[1..] == Split(tail);
      assert [s[0]] + rest[0] == scheme;
    }
  }

  /** A piece without spaces followed by nothing or by a space is the first piece. */
  lemma {:induction false} SplitFirstPiece(token: string, rest: string)
    requires Space !in token
    requires rest == [] || rest[0] == Space
    ensures Split(token + rest)[0] == token
  {
    if token != [] {
      assert (token + rest)[1..] == token[1..] + rest;
      SplitFirstPiece(token[1..], rest);
    } else {
      assert token + rest == rest;
    }
  }

  /** `Authorization: <scheme> <token>[ <more>]` yields exactly `<token>`. */
  lemma BearerTokenOf(scheme: string, token: string, rest: string)
    requires Space !in scheme && Space !in token
    requires rest == [] || rest[0] == Space
    ensures BearerToken(scheme + [Space] + token + rest) == Some(token)
  {
    assert scheme + [Space] + token + rest == scheme + [Space] + (token + rest);
    SplitAfterScheme(scheme, token + rest);
    SplitFirstPiece(token, rest);
  }

  /** The outcomes the gate can hand a protected handler: a user id, or one of its two
      errors. */
  predicate GateOutcome(session: Result<int>) {
    session.Err? ==> session.error == Unauthenticated || session.error == InvalidToken
  }

  /** The gate: a missing or empty header is `Unauthenticated` ('No token'); a header
      without a second piece, or a token the service rejects, is `InvalidToken`; otherwise
      the request goes on as the user id inside the token. */
  function Auth(header: Option<string>, verify: string -> Option<int>): (r: Result<int>)
    ensures r == Err(Unauthenticated) <==> header == None || header == Some("")
    ensures r.Err? ==> r.error == Unauthenticated || r.error == InvalidToken
    ensures GateOutcome(r)
    ensures r.Ok? ==> header.Some? && Space in header.value
                      && verify(BearerToken(header.value).value) == Some(r.value)
    ensures header.Some? && Space in header.value && verify(BearerToken(header.value).value).Some?
            ==> r == Ok(verify(BearerToken(header.value).value).value)
  {
    if header == None || header == Some("") then Err(Unauthenticated)
    else match BearerToken(header.value)
      case None => Err(InvalidToken)
      case Some(token) =>
        match verify(token)
        case None => Err(InvalidToken)
        case Some(userId) => Ok(userId)
  }

  /** A token the service accepts, sent as `Bearer <token>`, lets its user through. */
  lemma AuthAcceptsBearer(token: string, userId: int, verify: string -> Option<int>)
    requires Space !in token
    requires verify(token) == Some(userId)
    ensures Auth(Some("Bearer " + token), verify) == Ok(userId)
  {
    BearerTokenOf("Bearer", token, []);
    assert "Bearer" + [Space] + token + [] == "Bearer " + token;
  }
}

=== FILE: js_values.dfy ===
/** The values a handler reads from a JSON request body (after `express.json()`),
    and the JavaScript tests the handlers apply to them. */
module JsValues {

  /** A field the body leaves out reads as `Undefined`. JSON numbers are modelled as
      reals, so they stand for finite numbers only; a literal too large for a double,
      which `JSON.parse` reads as `Infinity`, is not represented. */
  datatype Value =
    | Undefined
    | Null
    | Bool(b: bool)
    | Num(n: real)
    | Str(s: string)
    | Arr(elems: seq<Value>)
    | Obj(fields: map<string, Value>)

  /** JavaScript truthiness: `undefined`, `null`, `false`, `0` and `''` are falsy,
      every other value (arrays and objects included, even empty ones) is truthy. */
  predicate Truthy(v: Value): (t: bool)
    ensures !t <==> v == Undefined || v == Null || v == Bool(false) || v == Num(0.0) || v == Str("")
  {
    match v
    case Undefined => false
    case Null => false
    case Bool(b) => b
    case Num(n) => n != 0.0
    case Str(s) => s != ""
    case Arr(_) => true
    case Obj(_) => true
  }

  /** `v || fallback`: the first operand when it is truthy, else the second, so the
      result is truthy iff either operand is. */
  function OrElse(v: Value, fallback: Value): (r: Value)
    ensures r == v || r == fallback
    ensures Truthy(r) <==> Truthy(v) || Truthy(fallback)
    ensures Truthy(v) ==> r == v
    ensures !Truthy(v) ==> r == fallback
  {
    if Truthy(v) then v else fallback
  }

  /** `v && typeof v === 'string'`: a non-empty string. */
  predicate IsNonEmptyString(v: Value) {
    v.Str? && v.s != ""
  }

  /** `v && typeof v === 'number'`: a non-zero number. */
  predicate IsNonZeroNumber(v: Value) {
    v.Num? && v.n != 0.0
  }

  /** `v && typeof v === 'object'`: an array or an object (`null` is an object but falsy). */
  predicate IsObject(v: Value) {
    v.Arr? || v.Obj?
  }

  /** `stored === incoming`, where `incoming` was just parsed from a request body.
      Primitive values compare by value; an array or object parsed from a body is a
      fresh reference, so it is strictly equal to nothing stored earlier. */
  predicate StrictEquals(stored: Value, incoming: Value): (e: bool)
    ensures IsObject(incoming) ==> !e
    ensures e ==> stored == incoming && !IsObject(stored)
    ensures !IsObject(incoming) && stored == incoming ==> e
  {
    !IsObject(incoming) && stored == incoming
  }
}

=== FILE: lifecycle.dfy ===
/** Appointments (src/index.js:182-262): the record the create handler builds, the two
    ways a record changes afterwards (confirm-payment and the status/notes update), the
    payment phase those changes move it through, and the owner filter. */
module Lifecycle {
  import opened Outcomes
  import opened JsValues

  const PendingPayment: string := "pending_payment"
  const Pending: string := "pending"
  const Unpaid: string := "unpaid"
  const DepositPaid: string := "deposit_paid"

  /** An appointment row. The body fields are kept as the body gave them; `status` is
      free text once an update has set it. `paymentIntentId`, `depositAmount` and
      `paidAt` are absent (`Undefined`, `None`) until a payment is confirmed. */
  datatype Appointment = Appointment(
    id: int,
    userId: int,
    service: Value,
    date: Value,
    time: Value,
    notes: Value,
    customerName: Value,
    customerPhone: Value,
    customerEmail: Value,
    stylistId: Value,
    status: Value,
    paymentStatus: string,
    depositPaid: bool,
    createdAt: string,
    paymentIntentId: Value,
    depositAmount: Value,
    paidAt: Option<string>)

  function AppointmentId(a: Appointment): int { a.id }

  /** The body of appointment create. */
  datatype AppointmentBody = AppointmentBody(
    service: Value,
    date: Value,
    time: Value,
    notes: Value,
    customerName: Value,
    customerPhone: Value,
    customerEmail: Value,
    stylistId: Value)

  /** The `{ status, notes }` body of appointment update. */
  datatype StatusBody = StatusBody(status: Value, notes: Value)

  /** The `{ paymentIntentId, depositAmount }` body of confirm-payment. */
  datatype PaymentBody = PaymentBody(paymentIntentId: Value, depositAmount: Value)

  /** `service && date && time` */
  predicate AppointmentAccepted(body: AppointmentBody): (ok: bool)
    ensures ok ==> body.service != Undefined && body.date != Undefined && body.time != Undefined
    ensures body.service in {Null, Str("")} || body.date in {Null, Str("")} || body.time in {Null, Str("")} ==> !ok
    ensures IsNonEmptyString(body.service) && IsNonEmptyString(body.date) && IsNonEmptyString(body.time) ==> ok
  {
    Truthy(body.service) && Truthy(body.date) && Truthy(body.time)
  }

  /** Where an appointment stands with its deposit. The status text is not part of it: an
      update may set any truthy status in either phase. */
  datatype PaymentPhase = AwaitingDeposit | DepositReceived

  /** The phase a record's payment fields describe; `None` for a combination no handler
      produces. */
  function PhaseOf(a: Appointment): Option<PaymentPhase> {
    if a.paymentStatus == Unpaid && !a.depositPaid && a.paidAt == None
       && a.paymentIntentId == Undefined && a.depositAmount == Undefined
    then Some(AwaitingDeposit)
    else if a.paymentStatus == DepositPaid && a.depositPaid && a.paidAt.Some?
    then Some(DepositReceived)
    else None
  }

  /** What every stored appointment satisfies: its payment fields describe a phase and its
      status is truthy. */
  ghost predicate InLifecycle(a: Appointment) {
    PhaseOf(a).Some? && Truthy(a.status)
  }

  /** The record the create handler builds: optional text fields default to `''` and the
      stylist to `null`; it starts awaiting its deposit. */
  function NewAppointment(id: int, userId: int, body: AppointmentBody, now: string): (a: Appointment)
    ensures PhaseOf(a) == Some(AwaitingDeposit)
    ensures InLifecycle(a)
  {
    Appointment(
      id, userId, body.service, body.date, body.time,
      OrElse(body.notes, Str("")),
      OrElse(body.customerName, Str("")),
      OrElse(body.customerPhone, Str("")),
      OrElse(body.customerEmail, Str("")),
      OrElse(body.stylistId, Null),
      Str(PendingPayment), Unpaid, false, now,
      Undefined, Undefined, None)
  }

  /** The fields of a new appointment: the caller's id and the counter's id, the required
      fields as given, `''` for each optional text field the body leaves falsy and `null`
      for a falsy stylist, status 'pending_payment', payment status 'unpaid', no deposit. */
  lemma NewAppointmentFields(id: int, userId: int, body: AppointmentBody, now: string)
    ensures var a := NewAppointment(id, userId, body, now);
      && a.id == id && a.userId == userId && a.createdAt == now
      && a.service == body.service && a.date == body.date && a.time == body.time
      && a.notes == (if Truthy(body.notes) then body.notes else Str(""))
      && a.customerName == (if Truthy(body.customerName) then body.customerName else Str(""))
      && a.customerPhone == (if Truthy(body.customerPhone) then body.customerPhone else Str(""))
      && a.customerEmail == (if Truthy(body.customerEmail) then body.customerEmail else Str(""))
      && a.stylistId == (if Truthy(body.stylistId) then body.stylistId else Null)
      && a.status == Str(PendingPayment) && a.paymentStatus == Unpaid && !a.depositPaid
  {
  }

  /** Confirm-payment: whatever the record's phase and status, the deposit is recorded with
      the given intent id and amount, the status becomes 'pending', and nothing else but
      `paidAt` changes. */
  function Paid(a: Appointment, body: PaymentBody, now: string): (r: Appointment)
    ensures PhaseOf(r) == Some(DepositReceived)
    ensures InLifecycle(r)
  {
    a.(depositPaid := true,
       paymentStatus := DepositPaid,
       paymentIntentId := body.paymentIntentId,
       depositAmount := body.depositAmount,
       status := Str(Pending),
       paidAt := Some(now))
  }

  /** The status/notes update: a truthy status replaces the old one, notes replace the old
      ones whenever the body has them at all (even `''` or `null`). */
  function Edited(a: Appointment, body: StatusBody): (r: Appointment)
    ensures PhaseOf(r) == PhaseOf(a)
    ensures InLifecycle(a) ==> InLifecycle(r)
  {
    var status := if Truthy(body.status) then body.status else a.status;
    var notes := if body.notes != Undefined then body.notes else a.notes;
    a.(status := status, notes := notes)
  }

  /** Confirm-payment sets the deposit fields and the status, and every other field but
      `paidAt` is as before. */
  lemma PaidFields(a: Appointment, body: PaymentBody, now: string)
    ensures var r := Paid(a, body, now);
      && r.depositPaid && r.paymentStatus == DepositPaid && r.status == Str(Pending)
      && r.paymentIntentId == body.paymentIntentId && r.depositAmount == body.depositAmount
      && r.paidAt == Some(now)
      && r.(depositPaid := a.depositPaid, paymentStatus := a.paymentStatus, status := a.status,
            paymentIntentId := a.paymentIntentId, depositAmount := a.depositAmount,
            paidAt := a.paidAt) == a
  {
  }

  /** The update overwrites the status only with a truthy value, the notes whenever the
      body has them (even `''`), and nothing else. */
  lemma EditedFields(a: Appointment, body: StatusBody)
    ensures var r := Edited(a, body);
      && (r.status != a.status ==> Truthy(body.status) && r.status == body.status)
      && (Truthy(body.status) ==> r.status == body.status)
      && (body.notes != Undefined ==> r.notes == body.notes)
      && (body.notes == Undefined ==> r.notes == a.notes)
      && r.(status := a.status, notes := a.notes) == a
  {
  }

  /** Confirm-payment is not guarded against replay: a second confirmation simply
      overwrites the first. */
  lemma ConfirmLastWins(a: Appointment, first: PaymentBody, t1: string, second: PaymentBody, t2: string)
    ensures Paid(Paid(a, first, t1), second, t2) == Paid(a, second, t2)
  {
  }

  /** An update whose body has neither field changes nothing; a falsy status such as `''`
      leaves the status alone. */
  lemma EditWithoutFieldsKeeps(a: Appointment, status: Value)
    requires !Truthy(status)
    ensures Edited(a, StatusBody(status, Undefined)) == a
  {
  }

  /** The later of two updates wins on each field it carries. */
  lemma EditsCompose(a: Appointment, first: StatusBody, second: StatusBody)
    requires Truthy(second.status) && second.notes != Undefined
    ensures Edited(Edited(a, first), second) == Edited(a, second)
  {
  }

  /** What can happen to an appointment after it is created. */
  datatype Event = Confirm(payment: PaymentBody, at: string) | Edit(change: StatusBody)

  function Apply(a: Appointment, e: Event): Appointment {
    match e
    case Confirm(payment, at) => Paid(a, payment, at)
    case Edit(change) => Edited(a, change)
  }

  /** The record after the events, in order. */
  function Replay(a: Appointment, events: seq<Event>): Appointment
    decreases |events|
  {
    if events == [] then a else Replay(Apply(a, events[0]), events[1..])
  }

  predicate SomeConfirmation(events: seq<Event>) {
    exists i :: 0 <= i < |events| && events[i].Confirm?
  }

  /** The lifecycle: whatever sequence of updates and confirmations an appointment goes
      through, it keeps its id and owner, its deposit is recorded exactly when some
      confirmation happened, and otherwise it is still in the phase it started in. */
  lemma {:induction false} ReplayPhase(a: Appointment, events: seq<Event>)
    requires PhaseOf(a).Some?
    ensures Replay(a, events).id == a.id && Replay(a, events).userId == a.userId
    ensures PhaseOf(Replay(a, events))
            == if SomeConfirmation(events) then Some(DepositReceived) else PhaseOf(a)
    decreases |events|
  {
    if events != [] {
      var a' := Apply(a, events[0]);
      ReplayPhase(a', events[1..]);
      if events[0].Confirm? {
        assert SomeConfirmation(events);
      } else if SomeConfirmation(events[1..]) {
        var i :| 0 <= i < |events[1..]| && events[1..][i].Confirm?;
        assert events[i + 1].Confirm?;
      } else {
        forall i | 0 <= i < |events|
          ensures !events[i].Confirm?
        {
          if i > 0 { assert events[i] == events[1..][i - 1]; }
        }
      }
    }
  }

  /** A freshly created appointment stays awaiting its deposit until it is confirmed. */
  lemma UnconfirmedStaysUnpaid(id: int, userId: int, body: AppointmentBody, now: string, events: seq<Event>)
    requires !SomeConfirmation(events)
    ensures Replay(NewAppointment(id, userId, body, now), events).paymentStatus == Unpaid
    ensures !Replay(NewAppointment(id, userId, body, now), events).depositPaid
  {
    ReplayPhase(NewAppointment(id, userId, body, now), events);
  }

  /** `appointments.filter(a => a.userId === userId)`: the caller's appointments, in
      table order, and no one else's. */
  function OwnedBy(s: seq<Appointment>, userId: int): (mine: seq<Appointment>)
    ensures forall a :: a in mine <==> a in s && a.userId == userId
    ensures |mine| <= |s|
  {
    if s == [] then []
    else (if s[0].userId == userId then [s[0]] else []) + OwnedBy(s[1..], userId)
  }

  /** The filter keeps table order: filtering a concatenation concatenates the filtered
      parts. */
  lemma {:induction false} OwnedByAppend(s: seq<Appointment>, t: seq<Appointment>, userId: int)
    ensures OwnedBy(s + t, userId) == OwnedBy(s, userId) + OwnedBy(t, userId)
  {
    if s != [] {
      assert (s + t)[0] == s[0];
      assert (s + t)[1..] == s[1..] + t;
      OwnedByAppend(s[1..], t, userId);
    } else {
      assert s + t == t;
    }
  }
}

=== FILE: outcomes.dfy ===
/** Option, and the result every handler answers with: either the value it sends back
    or the error reply it sends instead. */
module Outcomes {

  datatype Option<+T> = None | Some(value: T)

  /** The error replies of the handlers: 401 for `Unauthenticated` ('No token') and
      `InvalidToken`; 400 for `ValidationError`, `Duplicate` ('Email already registered')
      and `InvalidCredentials`; 404 for `NotFound`. */
  datatype Error =
    | Unauthenticated
    | InvalidToken
    | ValidationError
    | Duplicate
    | InvalidCredentials
    | NotFound

  datatype Result<+T> = Ok(value: T) | Err(error: Error)
}

=== FILE: records.dfy ===
/** The rows of the user, product and order tables, the request bodies that create or
    change them, and the checks the handlers apply to those bodies (src/index.js). */
module Records {
  import opened Outcomes
  import opened JsValues
  import opened Sequences

  // ---------------------------------------------------------------- users

  /** A user row: the email exactly as the signup body gave it, and the salted bcrypt hash
      of the password. */
  datatype User = User(id: int, email: Value, passwordHash: string)

  function UserId(u: User): int { u.id }

  /** The `{ email, password }` body of signup and login. */
  datatype Credentials = Credentials(email: Value, password: Value)

  /** The `{ token, email }` reply of signup and login. */
  datatype Session = Session(token: string, email: Value)

  /** `email && password`: a missing, `null` or empty field is refused, and two non-empty
      strings are accepted. */
  predicate CredentialsGiven(body: Credentials): (given: bool)
    ensures body.email in {Undefined, Null, Str("")} ==> !given
    ensures body.password in {Undefined, Null, Str("")} ==> !given
    ensures IsNonEmptyString(body.email) && IsNonEmptyString(body.password) ==> given
  {
    Truthy(body.email) && Truthy(body.password)
  }

  /** `users.find(u => u.email === email)` finds a user: some stored email equals a
      primitive `email`; an object or array email never finds one. */
  ghost predicate EmailTaken(users: seq<User>, email: Value): (taken: bool)
    ensures IsObject(email) ==> !taken
    ensures taken ==> exists i :: 0 <= i < |users| && users[i].email == email
    ensures !IsObject(email) && (exists i :: 0 <= i < |users| && users[i].email == email) ==> taken
  {
    exists i :: 0 <= i < |users| && StrictEquals(users[i].email, email)
  }

  /** The user table: ids 1, 2, 3, ... in signup order, every email truthy, and no email
      registered twice. */
  ghost predicate UsersWellFormed(users: seq<User>, next: int) {
    && Numbered(users, UserId, next)
    && (forall i :: 0 <= i < |users| ==> Truthy(users[i].email))
    && (forall i, j :: 0 <= i < j < |users| ==> !StrictEquals(users[i].email, users[j].email))
  }

  /** At most one user matches an email: the one login finds is the only candidate. */
  lemma EmailOwnerUnique(users: seq<User>, next: int, email: Value, i: int, j: int)
    requires UsersWellFormed(users, next)
    requires 0 <= i < |users| && 0 <= j < |users|
    requires StrictEquals(users[i].email, email) && StrictEquals(users[j].email, email)
    ensures i == j
  {
  }

  /** Appending a user whose email is not taken, under the counter's id, keeps the table
      well formed. */
  lemma SignupKeepsUsers(users: seq<User>, next: int, user: User)
    requires UsersWellFormed(users, next)
    requires user.id == next && Truthy(user.email) && !EmailTaken(users, user.email)
    ensures UsersWellFormed(users + [user], next + 1)
  {
  }

  // ------------------------------------------------------------- products

  /** A product row. Rows created through the API have no `duration` or `category`; the
      seeded catalogue has both, and a full update keeps them. */
  datatype Product = Product(
    id: int,
    name: string,
    price: real,
    image: string,
    description: string,
    duration: Option<int>,
    category: Option<string>)

  function ProductId(p: Product): int { p.id }

  /** The `{ name, price, image, description }` body of product create and update. */
  datatype ProductBody = ProductBody(name: Value, price: Value, image: Value, description: Value)

  /** The four fields once validated. */
  datatype ProductFields = ProductFields(name: string, price: real, image: string, description: string)

  /** The body a client sends for the given fields. */
  function BodyOf(f: ProductFields): ProductBody {
    ProductBody(Str(f.name), Num(f.price), Str(f.image), Str(f.description))
  }

  /** The validation of product create and update: name, image and description must be
      non-empty strings and price a non-zero number (a negative price passes). The fields
      it yields are those of the body. */
  function ProductFieldsOf(body: ProductBody): (f: Option<ProductFields>)
    ensures f.Some? <==> IsNonEmptyString(body.name) && IsNonZeroNumber(body.price)
                         && IsNonEmptyString(body.image) && IsNonEmptyString(body.description)
    ensures f.Some? ==> BodyOf(f.value) == body
  {
    if IsNonEmptyString(body.name) && IsNonZeroNumber(body.price)
       && IsNonEmptyString(body.image) && IsNonEmptyString(body.description)
    then Some(ProductFields(body.name.s, body.price.n, body.image.s, body.description.s))
    else None
  }

  /** Every well-formed set of fields is accepted when sent, and comes back unchanged. */
  lemma ProductFieldsRoundTrip(f: ProductFields)
    requires f.name != "" && f.price != 0.0 && f.image != "" && f.description != ""
    ensures ProductFieldsOf(BodyOf(f)) == Some(f)
  {
  }

  /** `{ ...product, name, price, image, description }`: the four fields are replaced, the
      id and any other field are kept. */
  function WithFields(p: Product, f: ProductFields): (q: Product)
    ensures ProductId(q) == ProductId(p)
    ensures q.duration == p.duration && q.category == p.category
    ensures ProductFields(q.name, q.price, q.image, q.description) == f
  {
    p.(name := f.name, price := f.price, image := f.image, description := f.description)
  }

  /** The ids of the seeded catalogue in src/products.js. */
  function SeedProductIds(): seq<int> {
    [1, 2, 3, 4, 5, 6, 7, 8]
  }

  /** The seeded ids are distinct. */
  lemma SeedIdsDistinct()
    ensures Distinct(SeedProductIds())
  {
    var ids := SeedProductIds();
    assert forall i :: 0 <= i < |ids| ==> ids[i] == i + 1;
  }

  /** The product counter starts at 9 over the seeded ids. */
  lemma SeedNextProductId()
    ensures NextIdAfter(SeedProductIds()) == 9
  {
    var ids := SeedProductIds();
    assert forall i :: 0 <= i < |ids| ==> ids[i] == i + 1;
    assert ids[7] == 8;
    NextIdAfterLargest(ids, 8);
  }

  // --------------------------------------------------------------- orders

  /** An order row: the validated body, the caller's user id and the time it was placed. */
  datatype Order = Order(
    id: int,
    items: seq<Value>,
    total: real,
    customer: Value,
    paymentIntentId: Value,
    userId: int,
    date: string)

  function OrderId(o: Order): int { o.id }

  /** The `{ items, total, customer, paymentIntentId }` body of order create. */
  datatype OrderBody = OrderBody(items: Value, total: Value, customer: Value, paymentIntentId: Value)

  /** The validation of order create: `items` an array, `total` any number (zero and
      negative totals pass), `customer` an array or object, `paymentIntentId` truthy. */
  predicate OrderAccepted(body: OrderBody): (ok: bool)
    ensures ok ==> body.items.Arr? && body.total.Num? && IsObject(body.customer)
    ensures ok ==> Truthy(body.items) && Truthy(body.customer) && Truthy(body.paymentIntentId)
    ensures body.customer == Null ==> !ok
    ensures (body.items.Arr? && body.total == Num(0.0) && body.customer.Obj?
             && IsNonEmptyString(body.paymentIntentId)) ==> ok
  {
    && body.items.Arr?
    && body.total.Num?
    && IsObject(body.customer)
    && Truthy(body.paymentIntentId)
  }
}

=== FILE: scenarios.dfy ===
/** Request sequences with what each reply must be. Most start from a fresh server;
    `SequentialProductIds` starts from any valid store. */
module Scenarios {
  import opened Outcomes
  import opened JsValues
  import opened Sequences
  import opened AuthGate
  import opened Records
  import opened Lifecycle
  import opened Backend

  /** User 7 books a silk press, then pays the deposit. */
  method SilkPressBooking(now: string, later: string)
    returns (created: Result<Appointment>, confirmed: Result<Appointment>)
    ensures created.Ok? && created.value.userId == 7 && created.value.id == 1
    ensures created.value.status == Str(PendingPayment) && created.value.paymentStatus == Unpaid
    ensures !created.value.depositPaid && created.value.stylistId == Null && created.value.notes == Str("")
    ensures confirmed.Ok? && confirmed.value.id == created.value.id && confirmed.value.userId == 7
    ensures confirmed.value.status == Str(Pending) && confirmed.value.paymentStatus == DepositPaid
    ensures confirmed.value.depositPaid && confirmed.value.paidAt == Some(later)
    ensures confirmed.value.paymentIntentId == Str("pi_123") && confirmed.value.depositAmount == Num(30.0)
  {
    var booking := AppointmentBody(Str("Silk Press"), Str("2025-06-01"), Str("10:00"),
                                   Undefined, Undefined, Undefined, Undefined, Undefined);
    var payment := PaymentBody(Str("pi_123"), Num(30.0));
    var store, a := OneBooking(7, booking, now);
    created := Ok(a);
    NewAppointmentFields(1, 7, booking, now);
    confirmed := store.ConfirmPayment(Ok(7), 1, payment, later);
    PaidFields(a, payment, later);
  }

  /** A fresh store in which one user has booked once. */
  method OneBooking(userId: int, booking: AppointmentBody, now: string) returns (store: Store, a: Appointment)
    requires AppointmentAccepted(booking)
    ensures fresh(store) && store.Valid()
    ensures store.appointments == [a] && Ids(store.appointments, AppointmentId) == [1]
    ensures a == NewAppointment(1, userId, booking, now)
  {
    store := new Store([]);
    var r := store.CreateAppointment(Ok(userId), booking, now);
    a := r.value;
  }

  /** Over the seeded catalogue, the first product created gets id 9. */
  method FirstProductAfterSeed(seed: seq<Product>, body: ProductBody) returns (created: Result<Product>)
    requires Ids(seed, ProductId) == SeedProductIds()
    requires ProductFieldsOf(body).Some?
    ensures created.Ok? && created.value.id == 9
  {
    SeedIdsDistinct();
    SeedNextProductId();
    var store := new Store(seed);
    created := store.CreateProduct(body);
  }

  /** Three products created in turn get increasing ids from the counter, even when the
      first is deleted before the third is created; the deleted one is gone for good. */
  method SequentialProductIds(store: Store, body: ProductBody)
    returns (first: Result<Product>, second: Result<Product>, third: Result<Product>, lookup: Result<Product>)
    requires store.Valid()
    requires ProductFieldsOf(body).Some?
    modifies store
    ensures first.Ok? && second.Ok? && third.Ok?
    ensures first.value.id == old(store.nextProductId)
    ensures second.value.id == first.value.id + 1 && third.value.id == second.value.id + 1
    ensures lookup == Err(NotFound)
  {
    first := store.CreateProduct(body);
    var id1 := first.value.id;
    second := store.CreateProduct(body);
    assert second.value.id == id1 + 1;
    assert Ids(store.products, ProductId)[|store.products| - 2] == id1;
    var deleted := store.DeleteProduct(id1);
    ghost var left := store.products;
    NoRowWithId(left, id1);
    third := store.CreateProduct(body);
    assert third.value.id == id1 + 2;
    assert Ids(store.products, ProductId) == Ids(left, ProductId) + [third.value.id];
    lookup := store.GetProduct(id1);
  }

  lemma NoRowWithId(rows: seq<Product>, id: int)
    requires forall p :: p in rows ==> p.id != id
    ensures id !in Ids(rows, ProductId)
  {
    forall i | 0 <= i < |rows|
      ensures Ids(rows, ProductId)[i] != id
    {
      assert rows[i] in rows;
    }
  }

  /** A user signs up, logs in with the same credentials and is let through the gate with
      either token; a second signup with the same email fails whatever its password. Each
      request signs at its own time, so the two tokens may differ; both carry user 1. */
  method SignupThenLogin(email: string, password: Value, otherPassword: Value, hashed: string,
                         matches: (Value, string) -> bool,
                         signAtSignup: int -> string, signAtLogin: int -> string,
                         verify: string -> Option<int>)
    returns (signup: Result<Session>, login: Result<Session>, again: Result<Session>)
    requires email != "" && Truthy(password) && Truthy(otherPassword)
    requires matches(password, hashed)
    requires Space !in signAtSignup(1) && verify(signAtSignup(1)) == Some(1)
    requires Space !in signAtLogin(1) && verify(signAtLogin(1)) == Some(1)
    ensures signup == Ok(Session(signAtSignup(1), Str(email)))
    ensures login == Ok(Session(signAtLogin(1), Str(email)))
    ensures Auth(Some("Bearer " + signup.value.token), verify) == Ok(1)
    ensures Auth(Some("Bearer " + login.value.token), verify) == Ok(1)
    ensures again == Err(Duplicate)
  {
    var store := new Store([]);
    signup := store.Signup(Credentials(Str(email), password), hashed, signAtSignup);
    login := store.Login(Credentials(Str(email), password), matches, signAtLogin);
    AuthAcceptsBearer(signAtSignup(1), 1, verify);
    AuthAcceptsBearer(signAtLogin(1), 1, verify);
    assert StrictEquals(store.users[0].email, Str(email));
    again := store.Signup(Credentials(Str(email), otherPassword), hashed, signAtSignup);
  }

  /** A fresh store in which users 1 and 2 have each booked once. */
  method TwoBookings(now: string, booking: AppointmentBody)
    returns (store: Store, a: Appointment, b: Appointment)
    requires AppointmentAccepted(booking)
    ensures store.appointments == [a] + [b]
    ensures a.userId == 1 && a.id == 1 && b.userId == 2 && b.id == 2
  {
    store := new Store([]);
    var ra := store.CreateAppointment(Ok(1), booking, now);
    a := ra.value;
    var rb := store.CreateAppointment(Ok(2), booking, now);
    b := rb.value;
  }

  /** Two users book; each one's listing holds only their own booking. */
  method OwnListings(now: string, booking: AppointmentBody)
    returns (mineA: Result<seq<Appointment>>, mineB: Result<seq<Appointment>>)
    requires AppointmentAccepted(booking)
    ensures mineA.Ok? && |mineA.value| == 1 && mineA.value[0].userId == 1 && mineA.value[0].id == 1
    ensures mineB.Ok? && |mineB.value| == 1 && mineB.value[0].userId == 2 && mineB.value[0].id == 2
  {
    var store, a, b := TwoBookings(now, booking);
    OwnedByAppend([a], [b], 1);
    OwnedByAppend([a], [b], 2);
    assert OwnedBy(store.appointments, 1) == [a];
    assert OwnedBy(store.appointments, 2) == [b];
    mineA := store.ListMine(Ok(1));
    mineB := store.ListMine(Ok(2));
  }
}

=== FILE: sequences.dfy ===
/** The array operations the handlers use on their tables (`findIndex`, `splice`,
    `Math.max`), and the invariants of a table whose rows carry an id. */
module Sequences {

  /** `s.findIndex(p)`: the first index whose element satisfies `p`, or -1 when none does. */
  function FindIndex<T>(s: seq<T>, p: T -> bool): (r: int)
    ensures -1 <= r < |s|
    ensures r == -1 <==> forall i :: 0 <= i < |s| ==> !p(s[i])
    ensures 0 <= r ==> p(s[r]) && forall i :: 0 <= i < r ==> !p(s[i])
  {
    if s == [] then -1
    else if p(s[0]) then 0
    else
      var k := FindIndex(s[1..], p);
      if k == -1 then -1 else k + 1
  }

  /** `s.splice(k, 1)`: the rows before and after index `k`, in their order. */
  function RemoveAt<T>(s: seq<T>, k: nat): (r: seq<T>)
    requires k < |s|
    ensures |r| == |s| - 1
    ensures forall i :: 0 <= i < |r| ==> r[i] == if i < k then s[i] else s[i + 1]
  {
    s[..k] + s[k + 1..]
  }

  /** The ids of the rows, in table order. */
  function Ids<T>(rows: seq<T>, id: T -> int): (ids: seq<int>)
    ensures |ids| == |rows|
    ensures forall i :: 0 <= i < |rows| ==> ids[i] == id(rows[i])
  {
    seq(|rows|, i requires 0 <= i < |rows| => id(rows[i]))
  }

  ghost predicate Distinct(s: seq<int>) {
    forall i, j :: 0 <= i < j < |s| ==> s[i] != s[j]
  }

  /** `Math.max(...s)` on a non-empty list. */
  function MaxOf(s: seq<int>): (m: int)
    requires s != []
    ensures m in s
    ensures forall i :: 0 <= i < |s| ==> s[i] <= m
  {
    if |s| == 1 then s[0]
    else
      var rest := MaxOf(s[1..]);
      if s[0] >= rest then s[0] else rest
  }

  /** `s.length ? Math.max(...s) + 1 : 1`: the first id a counter seeded from the ids
      `s` hands out. It is above every seeded id, and one above the largest of them. */
  function NextIdAfter(s: seq<int>): (n: int)
    ensures forall i :: 0 <= i < |s| ==> s[i] < n
    ensures s == [] ==> n == 1
    ensures s != [] ==> n - 1 in s
  {
    if s == [] then 1 else MaxOf(s) + 1
  }

  /** A counter seeded from ids whose largest is `m` starts at `m + 1`. */
  lemma NextIdAfterLargest(s: seq<int>, m: int)
    requires m in s
    requires forall i :: 0 <= i < |s| ==> s[i] <= m
    ensures NextIdAfter(s) == m + 1
  {
  }

  /** A table whose rows are numbered 1, 2, 3, ... in insertion order and never removed,
      with `next` the id the counter hands out next. */
  ghost predicate Numbered<T>(rows: seq<T>, id: T -> int, next: int) {
    && next == |rows| + 1
    && forall i :: 0 <= i < |rows| ==> id(rows[i]) == i + 1
  }

  /** A table keyed by id whose rows can be removed: no two rows share an id, every row's
      id has been issued, and every id ever issued is below the counter, so the counter
      never hands out an id again. */
  ghost predicate KeyedTable<T>(rows: seq<T>, id: T -> int, next: int, issued: set<int>) {
    && Distinct(Ids(rows, id))
    && (forall i :: 0 <= i < |rows| ==> id(rows[i]) in issued)
    && (forall x :: x in issued ==> x < next)
  }

  /** Appending a row that takes the counter's id keeps the table keyed, once the counter
      has moved on and the id is recorded as issued. */
  lemma AppendKeepsKeyed<T>(rows: seq<T>, id: T -> int, next: int, issued: set<int>, row: T)
    requires KeyedTable(rows, id, next, issued)
    requires id(row) == next
    ensures next !in issued
    ensures KeyedTable(rows + [row], id, next + 1, issued + {next})
  {
  }

  /** Removing the row at `k` keeps the table keyed, and the rows left are exactly the
      rows whose id differs from the removed row's. */
  lemma RemoveKeepsKeyed<T>(rows: seq<T>, id: T -> int, next: int, issued: set<int>, k: nat)
    requires KeyedTable(rows, id, next, issued)
    requires k < |rows|
    ensures KeyedTable(RemoveAt(rows, k), id, next, issued)
    ensures forall r :: r in RemoveAt(rows, k) <==> r in rows && id(r) != id(rows[k])
  {
  }

  /** Replacing the row at `k` by one with the same id keeps the table keyed. */
  lemma ReplaceKeepsKeyed<T>(rows: seq<T>, id: T -> int, next: int, issued: set<int>, k: nat, row: T)
    requires KeyedTable(rows, id, next, issued)
    requires k < |rows| && id(row) == id(rows[k])
    ensures KeyedTable(rows[k := row], id, next, issued)
  {
  }
}

=== FILE: store.dfy ===
/** The server's in-memory state (src/index.js:24-30, 84-88) and its request handlers.
    Each handler is a method of `Store`; protected handlers take the outcome of the auth
    gate as `session` and answer its error before doing anything else. */
module Backend {
  import opened AuthGate
  import opened Outcomes
  import opened JsValues
  import opened Sequences
  import opened Records
  import opened Lifecycle

  class Store {
    var users: seq<User>
    var nextUserId: int
    var appointments: seq<Appointment>
    var nextAppointmentId: int
    var products: seq<Product>
    var orders: seq<Order>
    var nextProductId: int
    var nextOrderId: int

    /** Every id the product and appointment counters have handed out (or the seed held),
        including ids of rows deleted since. */
    ghost var issuedProductIds: set<int>
    ghost var issuedAppointmentIds: set<int>

    ghost predicate Valid()
      reads this
    {
      && UsersWellFormed(users, nextUserId)
      && KeyedTable(products, ProductId, nextProductId, issuedProductIds)
      && Numbered(orders, OrderId, nextOrderId)
      && KeyedTable(appointments, AppointmentId, nextAppointmentId, issuedAppointmentIds)
      && (forall i :: 0 <= i < |appointments| ==> InLifecycle(appointments[i]))
    }

    /** Server start: empty users, orders and appointments, every counter at 1 except the
        product counter, which starts one past the largest seeded product id. */
    constructor (seed: seq<Product>)
      requires Distinct(Ids(seed, ProductId))
      ensures Valid()
      ensures users == [] && nextUserId == 1
      ensures appointments == [] && nextAppointmentId == 1
      ensures products == seed && orders == [] && nextOrderId == 1
      ensures nextProductId == NextIdAfter(Ids(seed, ProductId))
    {
      users := [];
      nextUserId := 1;
      appointments := [];
      nextAppointmentId := 1;
      products := seed;
      orders := [];
      nextProductId := NextIdAfter(Ids(seed, ProductId));
      nextOrderId := 1;
      issuedProductIds := set i | 0 <= i < |seed| :: seed[i].id;
      issuedAppointmentIds := {};
      new;
      assert forall i :: 0 <= i < |seed| ==> Ids(seed, ProductId)[i] == seed[i].id;
    }

    // ------------------------------------------------------------ signup, login

    /** POST /api/signup. `hashed` is what the salted hash of the password resolved to;
        `sign` issues a token for a user id. */
    method Signup(body: Credentials, hashed: string, sign: int -> string) returns (r: Result<Session>)
      requires Valid()
      modifies this`users, this`nextUserId
      ensures Valid()
      ensures !CredentialsGiven(body) ==> r == Err(ValidationError)
      ensures CredentialsGiven(body) && EmailTaken(old(users), body.email) ==> r == Err(Duplicate)
      ensures r.Ok? <==> CredentialsGiven(body) && !EmailTaken(old(users), body.email)
      ensures r.Err? ==> users == old(users) && nextUserId == old(nextUserId)
      ensures r.Ok? ==>
        && users == old(users) + [User(old(nextUserId), body.email, hashed)]
        && nextUserId == old(nextUserId) + 1
        && r.value == Session(sign(old(nextUserId)), body.email)
    {
      if !CredentialsGiven(body) {
        return Err(ValidationError);
      }
      var existing := FindIndex(users, (u: User) => StrictEquals(u.email, body.email));
      if existing != -1 {
        return Err(Duplicate);
      }
      var user := User(nextUserId, body.email, hashed);
      SignupKeepsUsers(users, nextUserId, user);
      nextUserId := nextUserId + 1;
      users := users + [user];
      r := Ok(Session(sign(user.id), user.email));
    }

    /** POST /api/login. `matches` is the password check against a stored hash. An unknown
        email and a wrong password give the same error. */
    method Login(body: Credentials, matches: (Value, string) -> bool, sign: int -> string)
      returns (r: Result<Session>)
      requires Valid()
      ensures !CredentialsGiven(body) ==> r == Err(ValidationError)
      ensures CredentialsGiven(body) && !EmailTaken(users, body.email) ==> r == Err(InvalidCredentials)
      ensures forall i :: 0 <= i < |users| && CredentialsGiven(body) && StrictEquals(users[i].email, body.email) ==>
        r == if matches(body.password, users[i].passwordHash)
             then Ok(Session(sign(users[i].id), users[i].email))
             else Err(InvalidCredentials)
    {
      if !CredentialsGiven(body) {
        return Err(ValidationError);
      }
      var k := FindIndex(users, (u: User) => StrictEquals(u.email, body.email));
      if k == -1 {
        return Err(InvalidCredentials);
      }
      forall i | 0 <= i < |users| && StrictEquals(users[i].email, body.email)
        ensures i == k
      {
        EmailOwnerUnique(users, nextUserId, body.email, i, k);
      }
      var user := users[k];
      if !matches(body.password, user.passwordHash) {
        return Err(InvalidCredentials);
      }
      r := Ok(Session(sign(user.id), user.email));
    }

    // ---------------------------------------------------------------- products

    /** GET /api/products */
    method ListProducts() returns (r: seq<Product>)
      ensures r == products
    {
      r := products;
    }

    /** GET /api/products/:id */
    method GetProduct(id: int) returns (r: Result<Product>)
      requires Valid()
      ensures r.Ok? <==> id in Ids(products, ProductId)
      ensures r.Ok? ==> r.value in products && r.value.id == id
      ensures r.Err? ==> r.error == NotFound
    {
      var k := LocateProduct(id);
      if k == -1 {
        return Err(NotFound);
      }
      r := Ok(products[k]);
    }

    /** POST /api/products (no auth). The new product takes the counter's id, which no
        product has ever had. */
    method CreateProduct(body: ProductBody) returns (r: Result<Product>)
      requires Valid()
      modifies this`products, this`nextProductId, this`issuedProductIds
      ensures Valid()
      ensures r.Ok? <==> ProductFieldsOf(body).Some?
      ensures r.Err? ==> r.error == ValidationError && products == old(products)
                         && nextProductId == old(nextProductId)
                         && issuedProductIds == old(issuedProductIds)
      ensures r.Ok? ==>
        var f := ProductFieldsOf(body).value;
        && r.value == Product(old(nextProductId), f.name, f.price, f.image, f.description, None, None)
        && products == old(products) + [r.value]
        && nextProductId == old(nextProductId) + 1
        && r.value.id !in old(issuedProductIds)
        && issuedProductIds == old(issuedProductIds) + {r.value.id}
    {
      var fields := ProductFieldsOf(body);
      if fields.None? {
        return Err(ValidationError);
      }
      var f := fields.value;
      var product := Product(nextProductId, f.name, f.price, f.image, f.description, None, None);
      AppendKeepsKeyed(products, ProductId, nextProductId, issuedProductIds, product);
      issuedProductIds := issuedProductIds + {nextProductId};
      nextProductId := nextProductId + 1;
      products := products + [product];
      r := Ok(product);
    }

    /** PUT /api/products/:id (no auth). A missing id is reported before the body is
        validated; the update replaces the four fields and keeps the rest. */
    method UpdateProduct(id: int, body: ProductBody) returns (r: Result<Product>)
      requires Valid()
      modifies this`products
      ensures Valid()
      ensures id !in Ids(old(products), ProductId) ==> r == Err(NotFound)
      ensures id in Ids(old(products), ProductId) && ProductFieldsOf(body).None? ==> r == Err(ValidationError)
      ensures r.Ok? <==> id in Ids(old(products), ProductId) && ProductFieldsOf(body).Some?
      ensures r.Err? ==> products == old(products)
      ensures r.Ok? ==>
        && |products| == |old(products)|
        && (forall i :: 0 <= i < |products| ==>
              products[i] == if old(products)[i].id == id
                             then WithFields(old(products)[i], ProductFieldsOf(body).value)
                             else old(products)[i])
        && r.value in products && r.value.id == id
    {
      var k := LocateProduct(id);
      if k == -1 {
        return Err(NotFound);
      }
      var fields := ProductFieldsOf(body);
      if fields.None? {
        return Err(ValidationError);
      }
      var updated := WithFields(products[k], fields.value);
      ReplaceKeepsKeyed(products, ProductId, nextProductId, issuedProductIds, k, updated);
      products := products[k := updated];
      r := Ok(updated);
    }

    /** DELETE /api/products/:id (no auth). Exactly the product with that id goes; the
        counter does not move, so its id is never handed out again. */
    method DeleteProduct(id: int) returns (r: Result<()>)
      requires Valid()
      modifies this`products
      ensures Valid()
      ensures r.Ok? <==> id in Ids(old(products), ProductId)
      ensures r.Err? ==> r.error == NotFound && products == old(products)
      ensures r.Ok? ==>
        && (exists k :: 0 <= k < |old(products)| && old(products)[k].id == id
                        && products == RemoveAt(old(products), k))
        && (forall p :: p in products <==> p in old(products) && p.id != id)
    {
      var k := LocateProduct(id);
      if k == -1 {
        return Err(NotFound);
      }
      RemoveKeepsKeyed(products, ProductId, nextProductId, issuedProductIds, k);
      products := RemoveAt(products, k);
      r := Ok(());
    }

    /** `products.findIndex(p => p.id === id)`: the row of the only product with that
        id, or -1 when there is none. */
    method LocateProduct(id: int) returns (k: int)
      requires Valid()
      ensures -1 <= k < |products|
      ensures k == -1 <==> id !in Ids(products, ProductId)
      ensures 0 <= k ==> products[k].id == id
      ensures 0 <= k ==> forall i :: 0 <= i < |products| && products[i].id == id ==> i == k
    {
      k := FindIndex(products, (p: Product) => p.id == id);
      if k == -1 {
        assert forall i :: 0 <= i < |products| ==> Ids(products, ProductId)[i] != id;
        return;
      }
      assert Ids(products, ProductId)[k] == id;
      forall i | 0 <= i < |products| && products[i].id == id
        ensures i == k
      {
        assert Ids(products, ProductId)[i] == Ids(products, ProductId)[k];
      }
    }

    // ------------------------------------------------------------------ orders

    /** GET /api/orders */
    method ListOrders() returns (r: seq<Order>)
      ensures r == orders
    {
      r := orders;
    }

    /** POST /api/orders (protected): validate, then append under the counter's id. */
    method CreateOrder(session: Result<int>, body: OrderBody, now: string) returns (r: Result<()>)
      requires GateOutcome(session)
      requires Valid()
      modifies this`orders, this`nextOrderId
      ensures Valid()
      ensures session.Err? ==> r == Err(session.error)
      ensures session.Ok? && !OrderAccepted(body) ==> r == Err(ValidationError)
      ensures r.Ok? <==> session.Ok? && OrderAccepted(body)
      ensures r.Err? ==> orders == old(orders) && nextOrderId == old(nextOrderId)
      ensures r.Ok? ==>
        && orders == old(orders) + [Order(old(nextOrderId), body.items.elems, body.total.n,
                                          body.customer, body.paymentIntentId, session.value, now)]
        && nextOrderId == old(nextOrderId) + 1
    {
      if session.Err? {
        return Err(session.error);
      }
      if !OrderAccepted(body) {
        return Err(ValidationError);
      }
      var order := Order(nextOrderId, body.items.elems, body.total.n, body.customer,
                         body.paymentIntentId, session.value, now);
      nextOrderId := nextOrderId + 1;
      orders := orders + [order];
      r := Ok(());
    }

    // ------------------------------------------------------------ appointments

    /** GET /api/appointments (no auth): every appointment of every user. */
    method ListAppointments() returns (r: seq<Appointment>)
      ensures r == appointments
    {
      r := appointments;
    }

    /** GET /api/appointments/my (protected) */
    method ListMine(session: Result<int>) returns (r: Result<seq<Appointment>>)
      requires GateOutcome(session)
      ensures session.Err? ==> r == Err(session.error)
      ensures session.Ok? ==> r == Ok(OwnedBy(appointments, session.value))
    {
      if session.Err? {
        return Err(session.error);
      }
      r := Ok(OwnedBy(appointments, session.value));
    }

    /** POST /api/appointments (protected). The new appointment belongs to the caller,
        takes the counter's id, which no appointment has ever had, and awaits its deposit. */
    method CreateAppointment(session: Result<int>, body: AppointmentBody, now: string)
      returns (r: Result<Appointment>)
      requires GateOutcome(session)
      requires Valid()
      modifies this`appointments, this`nextAppointmentId, this`issuedAppointmentIds
      ensures Valid()
      ensures session.Err? ==> r == Err(session.error)
      ensures session.Ok? && !AppointmentAccepted(body) ==> r == Err(ValidationError)
      ensures r.Ok? <==> session.Ok? && AppointmentAccepted(body)
      ensures r.Err? ==> appointments == old(appointments)
                         && nextAppointmentId == old(nextAppointmentId)
                         && issuedAppointmentIds == old(issuedAppointmentIds)
      ensures r.Ok? ==>
        && r.value == NewAppointment(old(nextAppointmentId), session.value, body, now)
        && appointments == old(appointments) + [r.value]
        && nextAppointmentId == old(nextAppointmentId) + 1
        && r.value.id !in old(issuedAppointmentIds)
        && issuedAppointmentIds == old(issuedAppointmentIds) + {r.value.id}
    {
      if session.Err? {
        return Err(session.error);
      }
      if !AppointmentAccepted(body) {
        return Err(ValidationError);
      }
      var appointment := NewAppointment(nextAppointmentId, session.value, body, now);
      AppendKeepsKeyed(appointments, AppointmentId, nextAppointmentId, issuedAppointmentIds, appointment);
      issuedAppointmentIds := issuedAppointmentIds + {nextAppointmentId};
      nextAppointmentId := nextAppointmentId + 1;
      appointments := appointments + [appointment];
      r := Ok(appointment);
    }

    /** PUT /api/appointments/:id (protected; any caller, not only the owner). */
    method UpdateAppointment(session: Result<int>, id: int, body: StatusBody)
      returns (r: Result<Appointment>)
      requires GateOutcome(session)
      requires Valid()
      modifies this`appointments
      ensures Valid()
      ensures session.Err? ==> r == Err(session.error)
      ensures session.Ok? && id !in Ids(old(appointments), AppointmentId) ==> r == Err(NotFound)
      ensures r.Ok? <==> session.Ok? && id in Ids(old(appointments), AppointmentId)
      ensures r.Err? ==> appointments == old(appointments)
      ensures r.Ok? ==>
        && |appointments| == |old(appointments)|
        && (forall i :: 0 <= i < |appointments| ==>
              appointments[i] == if old(appointments)[i].id == id
                                 then Edited(old(appointments)[i], body)
                                 else old(appointments)[i])
        && r.value in appointments && r.value.id == id
    {
      if session.Err? {
        return Err(session.error);
      }
      var k := LocateAppointment(id);
      if k == -1 {
        return Err(NotFound);
      }
      var updated := Edited(appointments[k], body);
      ReplaceKeepsKeyed(appointments, AppointmentId, nextAppointmentId, issuedAppointmentIds, k, updated);
      appointments := appointments[k := updated];
      r := Ok(updated);
    }

    /** DELETE /api/appointments/:id (protected). Exactly the appointment with that id
        goes, payment record and all; the counter does not move. */
    method DeleteAppointment(session: Result<int>, id: int) returns (r: Result<()>)
      requires GateOutcome(session)
      requires Valid()
      modifies this`appointments
      ensures Valid()
      ensures session.Err? ==> r == Err(session.error)
      ensures session.Ok? && id !in Ids(old(appointments), AppointmentId) ==> r == Err(NotFound)
      ensures r.Ok? <==> session.Ok? && id in Ids(old(appointments), AppointmentId)
      ensures r.Err? ==> appointments == old(appointments)
      ensures r.Ok? ==>
        && (exists k :: 0 <= k < |old(appointments)| && old(appointments)[k].id == id
                        && appointments == RemoveAt(old(appointments), k))
        && (forall a :: a in appointments <==> a in old(appointments) && a.id != id)
    {
      if session.Err? {
        return Err(session.error);
      }
      var k := LocateAppointment(id);
      if k == -1 {
        return Err(NotFound);
      }
      RemoveKeepsKeyed(appointments, AppointmentId, nextAppointmentId, issuedAppointmentIds, k);
      appointments := RemoveAt(appointments, k);
      r := Ok(());
    }

    /** POST /api/appointments/:id/confirm-payment (protected). Whatever the appointment's
        status, it records the deposit; no other appointment changes. */
    method ConfirmPayment(session: Result<int>, id: int, body: PaymentBody, now: string)
      returns (r: Result<Appointment>)
      requires GateOutcome(session)
      requires Valid()
      modifies this`appointments
      ensures Valid()
      ensures session.Err? ==> r == Err(session.error)
      ensures session.Ok? && id !in Ids(old(appointments), AppointmentId) ==> r == Err(NotFound)
      ensures r.Ok? <==> session.Ok? && id in Ids(old(appointments), AppointmentId)
      ensures r.Err? ==> appointments == old(appointments)
      ensures r.Ok? ==>
        && |appointments| == |old(appointments)|
        && (forall i :: 0 <= i < |appointments| ==>
              appointments[i] == if old(appointments)[i].id == id
                                 then Paid(old(appointments)[i], body, now)
                                 else old(appointments)[i])
        && r.value in appointments && r.value.id == id
    {
      if session.Err? {
        return Err(session.error);
      }
      var k := LocateAppointment(id);
      if k == -1 {
        return Err(NotFound);
      }
      var paid := Paid(appointments[k], body, now);
      ReplaceKeepsKeyed(appointments, AppointmentId, nextAppointmentId, issuedAppointmentIds, k, paid);
      appointments := appointments[k := paid];
      r := Ok(paid);
    }

    /** `appointments.findIndex(a => a.id === id)`: the row of the only appointment with
        that id, or -1 when there is none. */
    method LocateAppointment(id: int) returns (k: int)
      requires Valid()
      ensures -1 <= k < |appointments|
      ensures k == -1 <==> id !in Ids(appointments, AppointmentId)
      ensures 0 <= k ==> appointments[k].id == id
      ensures 0 <= k ==> forall i :: 0 <= i < |appointments| && appointments[i].id == id ==> i == k
    {
      k := FindIndex(appointments, (a: Appointment) => a.id == id);
      if k == -1 {
        assert forall i :: 0 <= i < |appointments| ==> Ids(appointments, AppointmentId)[i] != id;
        return;
      }
      assert Ids(appointments, AppointmentId)[k] == id;
      forall i | 0 <= i < |appointments| && appointments[i].id == id
        ensures i == k
      {
        assert Ids(appointments, AppointmentId)[i] == Ids(appointments, AppointmentId)[k];
      }
    }
  }
}
